=== FILE: README.md ===
# Plan on Forge: session and AFK listeners

This project models the part of Player Analytics (Plan) that turns a Forge
server's raw player events into the calls Plan's analytics core receives.
Three pieces are modelled:

- **PlayerOnlineListener** (`online_listener.dfy`, module `OnlineListener`)
  handles handshakes, logins, joins, kicks and quits.
  - A LOGIN handshake stores the client's hostname, cut at its first NUL, in a single join-address slot.
  - Login copies that slot into the join-address cache under the player's profile id.
  - Login also queues one ban-status transaction.
  - A kick is stored only for targets the AFK tracker does not consider idle.
  - Join and quit report to the session consumers in a fixed order.
- **ForgeAFKListener** (`afk_listener.dfy`, module `AfkListener`) turns chat,
  commands and genuine movement into `performedAction` calls on the shared AFK tracker.
  - It looks up each player's ignore-AFK permission once and caches it until that player logs out.
  - Players with that permission are reported as exempt, and this listener never calls `performedAction` for them.
  - A command starting with `afk`, in any case, also reaches `usedAfkCommand`.
- **CommandSourceStackMixin** (`command_source.dfy`, module `CommandSource`)
  classifies a command source as the console, a player or another entity.
  It also defines the sender's UUID, name, chat formatter, `equals` and `hashCode`.

Each listener is an immutable state record with a pure `Step` function. `Step`
takes one event and returns the next state plus a log of the calls made into
collaborators, in order (`Common.Effect`). `Run` folds `Step` over a sequence
of events.

The collaborators are not modelled; they are function-valued parameters
supplied with each event:
- the AFK tracker's `isAfk`
- the position tracker's `getPosition` and `moved`
- whether the permissions API is available, and what LuckPerms answers
Clock reads are event fields. Where a handler reads the clock twice, the event
carries both readings:
- logout: `beforePlayerQuit` and `actOnQuitEvent`
- command: `event` and `usedAfkCommand`

The event bus is modelled per listener as the list of handler kinds the
listener has added. A handler runs only when its kind is in that list and the
listener is enabled.

`text.dfy` (module `Text`) holds the `String` operations the handlers use:
`indexOf`, `toLowerCase` and `startsWith`. `common.dfy` (module `Common`)
holds identifiers, `Option` for Java's nullable values, and the effect log.

Some behaviours of the code worth knowing; the model follows the code:
- The join address is one slot shared by every connection. A login does not
  clear it, so two logins with no LOGIN handshake between them record the same
  address (`OnlineListener.LoginKeepsSlot`).
- The join handler only looks the cached address up. Any eviction would happen
  inside `JoinAddressCache`, which is not part of this model.
- `equals` compares only the console flag and the optional UUID. So any two
  non-player entities are equal senders, with hash code 1237
  (`CommandSource.NonPlayerEntitiesAreEqual`).

## Model

| member | source | states |
|---|---|---|
| CommandSource.GetPlayer | Plan/forge/src/main/java/net/playeranalytics/plan/gathering/listeners/events/mixin/CommandSourceStackMixin.java:88-93 | present exactly when the entity is a server player, and then it is that entity |
| CommandSource.GetUuid | Plan/forge/src/main/java/net/playeranalytics/plan/gathering/listeners/events/mixin/CommandSourceStackMixin.java:70-72 | present exactly when the source is a player, and then it is that player's UUID (the console and other entities have none) |
| CommandSource.GetPlayerName | Plan/forge/src/main/java/net/playeranalytics/plan/gathering/listeners/events/mixin/CommandSourceStackMixin.java:60-62 | present exactly when the source is a player, and then it is the player's name |
| CommandSource.GetFormatter | Plan/forge/src/main/java/net/playeranalytics/plan/gathering/listeners/events/mixin/CommandSourceStackMixin.java:79-82 | the console formatter exactly for the console, the player formatter for every other source |
| CommandSource.HashCode | Plan/forge/src/main/java/net/playeranalytics/plan/gathering/listeners/events/mixin/CommandSourceStackMixin.java:95-98 | the 32-bit sum of Boolean.hashCode(isConsole) and the Optional's hash: 1231 for the console, 1237 for a non-player entity, and 1237 plus the UUID's hash, wrapped to 32 bits, for a player |
| CommandSource.Classification | Plan/forge/src/main/java/net/playeranalytics/plan/gathering/listeners/events/mixin/CommandSourceStackMixin.java:38-93 | isConsole iff no entity, isPlayer iff a server player, never both; a non-player entity is neither; supportsChatEvents equals isPlayer; the console has no UUID or name |
| CommandSource.IsPlayer | Plan/forge/src/main/java/net/playeranalytics/plan/gathering/listeners/events/mixin/CommandSourceStackMixin.java:38-40 | true exactly when the source's entity is a server player |
| CommandSource.SupportsChatEvents | Plan/forge/src/main/java/net/playeranalytics/plan/gathering/listeners/events/mixin/CommandSourceStackMixin.java:43-45 | true exactly when the source is a player, the same answer as isPlayer |
| CommandSource.IsConsole | Plan/forge/src/main/java/net/playeranalytics/plan/gathering/listeners/events/mixin/CommandSourceStackMixin.java:84-86 | true exactly when the source has no entity |
| CommandSource.Equals | Plan/forge/src/main/java/net/playeranalytics/plan/gathering/listeners/events/mixin/CommandSourceStackMixin.java:100-106 | false for any object that is not a command source; for a command source, true iff both are the console, both are players with the same UUID, or both are non-player entities |
| CommandSource.EqualsMeansSameKind | Plan/forge/src/main/java/net/playeranalytics/plan/gathering/listeners/events/mixin/CommandSourceStackMixin.java:100-106 | two sources are equal iff both are the console, both are players with the same UUID, or both are non-player entities |
| CommandSource.EqualsIsEquivalence | Plan/forge/src/main/java/net/playeranalytics/plan/gathering/listeners/events/mixin/CommandSourceStackMixin.java:100-106 | equals is reflexive, symmetric and transitive |
| CommandSource.NotEqualToOtherObjects | Plan/forge/src/main/java/net/playeranalytics/plan/gathering/listeners/events/mixin/CommandSourceStackMixin.java:102 | a source never equals an object that is not a command source |
| CommandSource.PlayerHashFollowsUuid | Plan/forge/src/main/java/net/playeranalytics/plan/gathering/listeners/events/mixin/CommandSourceStackMixin.java:95-98 | two players hash equal exactly when their UUIDs hash equal |
| CommandSource.EqualsImpliesEqualHash | Plan/forge/src/main/java/net/playeranalytics/plan/gathering/listeners/events/mixin/CommandSourceStackMixin.java:95-106 | equal sources have equal hash codes |
| CommandSource.NonPlayerEntitiesAreEqual | Plan/forge/src/main/java/net/playeranalytics/plan/gathering/listeners/events/mixin/CommandSourceStackMixin.java:88-106 | any two non-player entity sources are equal and both hash to 1237 |
| Text.IndexOf | Plan/forge/src/main/java/net/playeranalytics/plan/gathering/listeners/forge/PlayerOnlineListener.java:143 | -1 iff the character is absent; otherwise a position holding it with no earlier occurrence |
| Text.ToLower | Plan/forge/src/main/java/net/playeranalytics/plan/gathering/listeners/forge/ForgeAFKListener.java:118 | same length as the input, each ASCII capital letter mapped to its lower-case letter and every other character kept |
| Text.StartsWith | Plan/forge/src/main/java/net/playeranalytics/plan/gathering/listeners/forge/ForgeAFKListener.java:118 | true iff the prefix is no longer than the string and agrees with it at every position |
| AfkListener.Construct | Plan/forge/src/main/java/net/playeranalytics/plan/gathering/listeners/forge/ForgeAFKListener.java:50-62 | a new listener has an empty cache, is disabled and unregistered; the static tracker is kept when present and created from the configuration only when absent |
| AfkListener.ConstructReusesTracker | Plan/forge/src/main/java/net/playeranalytics/plan/gathering/listeners/forge/ForgeAFKListener.java:58-62 | constructing a second listener keeps the tracker the first construction created |
| AfkListener.Register | Plan/forge/src/main/java/net/playeranalytics/plan/gathering/listeners/forge/ForgeAFKListener.java:96-157 | on a registered listener nothing changes; otherwise the four handlers are added and the listener is enabled and marked registered |
| AfkListener.RegisterIdempotent | Plan/forge/src/main/java/net/playeranalytics/plan/gathering/listeners/forge/ForgeAFKListener.java:96-100 | a second register equals the first and the bus holds the four handlers once |
| AfkListener.Enable | Plan/forge/src/main/java/net/playeranalytics/plan/gathering/listeners/forge/ForgeAFKListener.java:165-168 | sets the enabled flag and changes nothing else |
| AfkListener.Disable | Plan/forge/src/main/java/net/playeranalytics/plan/gathering/listeners/forge/ForgeAFKListener.java:170-173 | clears the enabled flag and changes nothing else |
| AfkListener.CheckPermission | Plan/forge/src/main/java/net/playeranalytics/plan/gathering/listeners/forge/ForgeAFKListener.java:88-94 | false whenever the permissions API is unavailable; LuckPerms' answer otherwise |
| AfkListener.Activity | Plan/forge/src/main/java/net/playeranalytics/plan/gathering/listeners/forge/ForgeAFKListener.java:68-86 | the player enters the cache and no other entry changes; a cached value is reused without a lookup; an uncached one is looked up exactly once; an exempt player gets hasIgnorePermission and no performedAction; any other player gets exactly one performedAction at the given time; at most two calls, all about that player, and nothing besides the lookup, hasIgnorePermission and performedAction at that time |
| AfkListener.ActivityCalls | Plan/forge/src/main/java/net/playeranalytics/plan/gathering/listeners/forge/ForgeAFKListener.java:73-82 | one or two calls: the permission lookup first and exactly when the value was not cached, then exactly one hasIgnorePermission for an exempt player or exactly one performedAction at the given time for any other, and no other call |
| AfkListener.CachePermission | Plan/forge/src/main/java/net/playeranalytics/plan/gathering/listeners/forge/ForgeAFKListener.java:73-81 | the player joins the cache keys; a cached value is kept, an absent one becomes the permission check's answer; no other entry changes |
| AfkListener.IsAfkCommand | Plan/forge/src/main/java/net/playeranalytics/plan/gathering/listeners/forge/ForgeAFKListener.java:118 | true iff the text has at least three characters and they lower-case to a, f and k |
| AfkListener.Reconstruct | Plan/forge/src/main/java/net/playeranalytics/plan/gathering/listeners/forge/ForgeAFKListener.java:142-149 | each packet field replaces the stored one when present; the packet's x-rotation stands in for the stored yaw and its y-rotation for the pitch; a packet with neither gives back the stored sample |
| AfkListener.ChatIsActivity | Plan/forge/src/main/java/net/playeranalytics/plan/gathering/listeners/forge/ForgeAFKListener.java:102-109 | a handled chat message is exactly the activity handling of its sender at the message's time, with the event's collaborators |
| AfkListener.CommandIsActivity | Plan/forge/src/main/java/net/playeranalytics/plan/gathering/listeners/forge/ForgeAFKListener.java:110-125 | a handled player command is the activity handling of that player at the first clock read, followed by usedAfkCommand at the second read exactly when it is an afk command, and by nothing else |
| AfkListener.Step | Plan/forge/src/main/java/net/playeranalytics/plan/gathering/listeners/forge/ForgeAFKListener.java:102-153 | an event whose handler is not registered, or reaches a disabled listener, changes nothing and has no effect; no event changes the enabled or registered state |
| AfkListener.RunKeepsValid | Plan/forge/src/main/java/net/playeranalytics/plan/gathering/listeners/forge/ForgeAFKListener.java:102-153 | after any run the handlers on the bus still match the registered flag, and the enabled flag is unchanged |
| AfkListener.InactiveRunIsInert | Plan/forge/src/main/java/net/playeranalytics/plan/gathering/listeners/forge/ForgeAFKListener.java:102-153 | a disabled or unregistered listener ignores any sequence of events: no effects, same state |
| AfkListener.AfkCommand | Plan/forge/src/main/java/net/playeranalytics/plan/gathering/listeners/forge/ForgeAFKListener.java:110-125 | a player's command reaches usedAfkCommand iff its lower-cased text starts with "afk", whatever the player's exemption; a command from a non-player does nothing |
| AfkListener.AfkCommandLetters | Plan/forge/src/main/java/net/playeranalytics/plan/gathering/listeners/forge/ForgeAFKListener.java:118 | the lower-cased text starts with "afk" iff its first three characters are a, f, k in either case |
| AfkListener.LogoutForgetsOnlyThatPlayer | Plan/forge/src/main/java/net/playeranalytics/plan/gathering/listeners/forge/ForgeAFKListener.java:127-134 | logout removes that player's cache entry and keeps every other entry; no effects |
| AfkListener.MoveIsActivityIffMoved | Plan/forge/src/main/java/net/playeranalytics/plan/gathering/listeners/forge/ForgeAFKListener.java:136-153 | a move has effects iff the position tracker reports movement for the reconstructed sample, and then it is exactly the activity handling of that player at the move's time with the event's collaborators; otherwise the state is unchanged |
| AfkListener.ReconstructDefaults | Plan/forge/src/main/java/net/playeranalytics/plan/gathering/listeners/forge/ForgeAFKListener.java:142-149 | packet fields that are present are used; absent position or rotation fields come from the stored sample |
| AfkListener.StepLookups | Plan/forge/src/main/java/net/playeranalytics/plan/gathering/listeners/forge/ForgeAFKListener.java:73 | any event looks a player's permission up once if it adds that player to the cache, and otherwise not at all |
| AfkListener.StepKeepsCachedPermission | Plan/forge/src/main/java/net/playeranalytics/plan/gathering/listeners/forge/ForgeAFKListener.java:73-80 | any event other than that player's logout keeps the cached value, and never calls performedAction for an exempt player |
| AfkListener.PermissionLookedUpOnce | Plan/forge/src/main/java/net/playeranalytics/plan/gathering/listeners/forge/ForgeAFKListener.java:73-81 | while the player stays online the cached value never changes and the permission is looked up at most once |
| AfkListener.ExemptPlayerNeverActs | Plan/forge/src/main/java/net/playeranalytics/plan/gathering/listeners/forge/ForgeAFKListener.java:74-77 | once an exempt player is cached, no later event calls performedAction for them until they log out |
| OnlineListener.New | Plan/forge/src/main/java/net/playeranalytics/plan/gathering/listeners/forge/PlayerOnlineListener.java:61-82 | a new listener keeps the injected server identity and join-address cache, has an empty join-address slot, and is disabled and unregistered |
| OnlineListener.Register | Plan/forge/src/main/java/net/playeranalytics/plan/gathering/listeners/forge/PlayerOnlineListener.java:84-136 | on a registered listener nothing changes; otherwise the five handlers are added and the listener is enabled and marked registered; the server identity, the slot and the cache are never touched |
| OnlineListener.RegisterIdempotent | Plan/forge/src/main/java/net/playeranalytics/plan/gathering/listeners/forge/PlayerOnlineListener.java:84-88 | a second register equals the first and the bus holds the five handlers once |
| OnlineListener.Enable | Plan/forge/src/main/java/net/playeranalytics/plan/gathering/listeners/forge/PlayerOnlineListener.java:233-236 | sets the enabled flag and changes nothing else |
| OnlineListener.Disable | Plan/forge/src/main/java/net/playeranalytics/plan/gathering/listeners/forge/PlayerOnlineListener.java:238-241 | clears the enabled flag and changes nothing else |
| OnlineListener.StoredHostName | Plan/forge/src/main/java/net/playeranalytics/plan/gathering/listeners/forge/PlayerOnlineListener.java:141-145 | null stays null; otherwise the stored value has no NUL, is a prefix of the hostname, and ends at the hostname's end or at its first NUL |
| OnlineListener.StoredHostNameIsLongest | Plan/forge/src/main/java/net/playeranalytics/plan/gathering/listeners/forge/PlayerOnlineListener.java:142-143 | every NUL-free prefix of the hostname is a prefix of the stored value |
| OnlineListener.HostNameWithoutNulUnchanged | Plan/forge/src/main/java/net/playeranalytics/plan/gathering/listeners/forge/PlayerOnlineListener.java:142-145 | a hostname without NUL is stored unchanged |
| OnlineListener.ForgeMarkerIsCut | Plan/forge/src/main/java/net/playeranalytics/plan/gathering/listeners/forge/PlayerOnlineListener.java:142-143 | "play.example.com\0FML" is stored as "play.example.com" |
| OnlineListener.OnHandshake | Plan/forge/src/main/java/net/playeranalytics/plan/gathering/listeners/forge/PlayerOnlineListener.java:138-150 | only a LOGIN handshake changes the listener, and only the slot, to the cut hostname |
| OnlineListener.HandshakeIsSilent | Plan/forge/src/main/java/net/playeranalytics/plan/gathering/listeners/forge/PlayerOnlineListener.java:125-150 | a handled handshake makes no call at all; its only effect is the slot update of onHandshake |
| OnlineListener.LastLoginHandshakeWins | Plan/forge/src/main/java/net/playeranalytics/plan/gathering/listeners/forge/PlayerOnlineListener.java:140-146 | after any run the slot holds the cut hostname of the last LOGIN handshake, or its old value if there was none |
| OnlineListener.OnLogin | Plan/forge/src/main/java/net/playeranalytics/plan/gathering/listeners/forge/PlayerOnlineListener.java:152-163 | the slot's value is cached under the profile id and no other entry changes; the slot is kept; exactly one ban-status transaction, banned iff the login carries a rejection |
| OnlineListener.LoginKeepsSlot | Plan/forge/src/main/java/net/playeranalytics/plan/gathering/listeners/forge/PlayerOnlineListener.java:152-159 | two logins with no handshake between them cache the same address for both players |
| OnlineListener.KickStores | Plan/forge/src/main/java/net/playeranalytics/plan/gathering/listeners/forge/PlayerOnlineListener.java:112-114 | every effect is a kick store for a listed target that is not idle; no more kick stores than listed targets |
| OnlineListener.KickCount | Plan/forge/src/main/java/net/playeranalytics/plan/gathering/listeners/forge/PlayerOnlineListener.java:165-172 | an idle target gets no kick store; any other target gets exactly one per time it is listed |
| OnlineListener.KickEventStores | Plan/forge/src/main/java/net/playeranalytics/plan/gathering/listeners/forge/PlayerOnlineListener.java:107-116 | a handled kick changes no state and queues only kick stores: none for an idle player, and one per time any other player is listed |
| OnlineListener.CachedAddress | Plan/forge/src/main/java/net/playeranalytics/plan/gathering/listeners/forge/PlayerOnlineListener.java:194 | empty for a player the cache does not hold; for a player it holds, exactly the cached address (which may itself be null) |
| OnlineListener.LoginRecordsSlot | Plan/forge/src/main/java/net/playeranalytics/plan/gathering/listeners/forge/PlayerOnlineListener.java:117-124 | after a handled login, the cached address of that profile is the slot's value and every other player's cached address is unchanged |
| OnlineListener.OnJoin | Plan/forge/src/main/java/net/playeranalytics/plan/gathering/listeners/forge/PlayerOnlineListener.java:186-197 | performedAction, then the join event, both at the same time; the join carries the address cached for that player |
| OnlineListener.OnLogout | Plan/forge/src/main/java/net/playeranalytics/plan/gathering/listeners/forge/PlayerOnlineListener.java:199-226 | before-leave, then loggedOut, then position removal, then the leave event, all for the same player; loggedOut and leave share one time |
| OnlineListener.JoinEventCalls | Plan/forge/src/main/java/net/playeranalytics/plan/gathering/listeners/forge/PlayerOnlineListener.java:90-97 | a handled join changes no state and makes performedAction, then the join event carrying the address cached for that player rather than the shared slot, both at the join's time |
| OnlineListener.LogoutEventOrder | Plan/forge/src/main/java/net/playeranalytics/plan/gathering/listeners/forge/PlayerOnlineListener.java:98-106 | a handled quit changes no state and makes before-leave at the first clock read, then loggedOut, position removal and leave at the second, all for that player and this server |
| OnlineListener.Step | Plan/forge/src/main/java/net/playeranalytics/plan/gathering/listeners/forge/PlayerOnlineListener.java:90-132 | an event whose handler is not registered, or reaches a disabled listener, changes nothing and has no effect; only handshakes touch the slot and only logins touch the cache |
| OnlineListener.InactiveRunIsInert | Plan/forge/src/main/java/net/playeranalytics/plan/gathering/listeners/forge/PlayerOnlineListener.java:90-132 | a disabled or unregistered listener ignores any sequence of events: no effects, same state |
| OnlineListener.RunKeepsActive | Plan/forge/src/main/java/net/playeranalytics/plan/gathering/listeners/forge/PlayerOnlineListener.java:90-132 | no sequence of events changes the enabled flag, the registered flag or the handlers |
| OnlineListener.HandshakeLoginJoin | Plan/forge/src/main/java/net/playeranalytics/plan/gathering/listeners/forge/PlayerOnlineListener.java:138-197 | a LOGIN handshake, then a login, then a join: one ban-status transaction, then performedAction and a join event carrying the cut hostname |
| OnlineListener.RunKeepsSessionOrder | Plan/forge/src/main/java/net/playeranalytics/plan/gathering/listeners/forge/PlayerOnlineListener.java:186-226 | in the log of any run, every leave notice directly follows the player's before-leave notice, loggedOut at the same time and the position removal; every join notice directly follows performedAction at the same time |

## Left out

- AFKTracker internals are not part of this model: the idle threshold, `isAfk`'s computation and `loggedOut` accounting. `isAfk` is an oracle and the tracker's methods are logged calls.
- ForgePlayerPositionTracker internals are not part of this model: the movement thresholds and sample storage. `getPosition` and `moved` are oracles.
- JoinAddressCache is not part of this model. It is a map from player to nullable address, and `getNullableString` is a lookup.
- LuckPermsHandler and CommandManager are opaque. The permission check is an oracle, and the ignore-AFK permission key is implicit in it.
- ServerHandshakePacketListenerImplMixin and PlanForgeEvents are left out. They are bytecode injection and event posting; only the event shapes are kept.
- ForgeServerShutdownSave is left out. It is a host query, and its shutdown logic lives in a superclass that is not part of this model.
- Concurrency is left out. The concurrent map and the atomic reference become a map and a single slot, events are handled one at a time, and the order in which the two listeners see a shared logout event is not modelled.
- Exceptions and error logging are left out. The try/catch blocks are not modelled; the collaborators are assumed not to throw.
- The address, profile and server objects in the events are reduced to the fields the handlers read. Message building (`sendSuccess`, `buildMessage`, `send`) and `hasPermission` of the mixin are left out; they call into the host.
- Text.ToLower: maps ASCII capital letters only, one character to one. Java's `toLowerCase` also maps non-ASCII letters, depends on the default locale, and can change the length (U+0130 becomes two characters).
- AfkListener.IsAfkCommand: lower-casing covers ASCII letters only. Java's `toLowerCase` also maps non-ASCII characters, such as the Kelvin sign to `k`, and depends on the default locale.
- AfkListener.Reconstruct: positions are reals. The cast of the stored rotations from double to float is not modelled.
- AfkListener.Run and OnlineListener.Run: each event carries its own oracle answers, so the trackers' state is not tied to the logged calls.

=== FILE: afk_listener.dfy ===
/** ForgeAFKListener: turns chat, commands and movement into activity signals
    for the AFK tracker, skipping players whose ignore-AFK permission is set,
    and caching that permission per player until they log out.

    The position tracker, the AFK tracker and the permission provider are not
    modelled; their answers arrive as an Oracles value with each event, and
    the calls made into them are appended to an effect log. */
module AfkListener {
  import opened Common
  import opened Text
  import CommandSource

  // ---------------------------------------------------------------------------
  // Collaborators

  /** A position sample, in the order ForgePlayerPositionTracker.getPosition
      lays it out: x, y, z, yaw, pitch. */
  datatype Sample = Sample(x: real, y: real, z: real, yaw: real, pitch: real)

  /** A ServerboundMovePlayerPacket: a position and a rotation, each of which
      the client may leave out. */
  datatype MovePacket = MovePacket(
    hasPos: bool, x: real, y: real, z: real,
    hasRot: bool, xRot: real, yRot: real)

  /** What the uninterpreted collaborators answer while one event is handled. */
  datatype Oracles = Oracles(
    // CommandManager.isPermissionsApiAvailable()
    permissionsApiAvailable: bool,
    // what LuckPerms says about the ignore-AFK permission of a player
    grantsIgnoreAfk: Uuid -> bool,
    // ForgePlayerPositionTracker.getPosition
    storedSample: Uuid -> Sample,
    // ForgePlayerPositionTracker.moved
    moved: (Uuid, Sample) -> bool)

  /** The AFKTracker held in a static field, and the configuration it was built from. */
  type ConfigId = nat
  datatype Tracker = Tracker(config: ConfigId)

  // ---------------------------------------------------------------------------
  // Listener state and events

  /** The event kinds the listener subscribes to on the event bus. */
  datatype Kind = ChatKind | CommandKind | LoggedOutKind | MoveKind

  /** The handlers register adds, in the order it adds them. */
  const Subscriptions: seq<Kind> := [ChatKind, CommandKind, LoggedOutKind, MoveKind]

  datatype Listener = Listener(
    ignorePermissionInfo: map<Uuid, bool>,
    enabled: bool,
    registered: bool,
    // the handlers this listener has added to the event bus
    handlers: seq<Kind>)

  datatype Event =
    | ChatEvent(player: Uuid, time: Millis)
    // actionTime and commandTime are the two clock reads the command handler makes
    | CommandEvent(source: CommandSource.Source, input: string, actionTime: Millis, commandTime: Millis)
    | LoggedOutEvent(player: Uuid)
    | MoveEvent(player: Uuid, packet: MovePacket, time: Millis)

  /** One event together with what the collaborators answer while it is handled. */
  datatype Input = Input(event: Event, oracles: Oracles)

  datatype Transition = Transition(next: Listener, effects: seq<Effect>)

  /** The bus handler an event is delivered to. */
  function HandlerKind(e: Event): Kind
  {
    match e
    case ChatEvent(_, _) => ChatKind
    case CommandEvent(_, _, _, _) => CommandKind
    case LoggedOutEvent(_) => LoggedOutKind
    case MoveEvent(_, _, _) => MoveKind
  }

  /** The handlers registered on the bus exist exactly when register has run. */
  predicate Valid(s: Listener)
  {
    s.handlers == if s.registered then Subscriptions else []
  }

  // ---------------------------------------------------------------------------
  // Construction, registration, enabling

  /** The constructor: an empty permission cache, not yet enabled or registered,
      and the static tracker created from config only when there is none yet. */
  function Construct(config: ConfigId, tracker: Option<Tracker>): (r: (Listener, Option<Tracker>))
    ensures Valid(r.0) && !r.0.enabled && !r.0.registered && r.0.ignorePermissionInfo == map[]
    ensures r.1.Some?
    ensures tracker.Some? ==> r.1 == tracker
    ensures tracker.None? ==> r.1.value.config == config
  {
    (Listener(map[], false, false, []), if tracker.None? then Some(Tracker(config)) else tracker)
  }

  /** register: adds the four handlers and enables the listener, once. */
  function Register(s: Listener): (r: Listener)
    ensures s.registered ==> r == s
    ensures !s.registered ==> r.registered && r.enabled && r.handlers == s.handlers + Subscriptions
    ensures r.ignorePermissionInfo == s.ignorePermissionInfo
    ensures Valid(s) ==> Valid(r)
  {
    if s.registered then s
    else s.(enabled := true, registered := true, handlers := s.handlers + Subscriptions)
  }

  function Enable(s: Listener): (r: Listener)
    ensures r.enabled && r.(enabled := s.enabled) == s
  {
    s.(enabled := true)
  }

  function Disable(s: Listener): (r: Listener)
    ensures !r.enabled && r.(enabled := s.enabled) == s
  {
    s.(enabled := false)
  }

  // ---------------------------------------------------------------------------
  // Handlers

  /** checkPermission: LuckPerms' answer when the permissions API is available, false otherwise. */
  function CheckPermission(o: Oracles, u: Uuid): (r: bool)
    ensures !o.permissionsApiAvailable ==> !r
    ensures o.permissionsApiAvailable ==> r == o.grantsIgnoreAfk(u)
  {
    o.permissionsApiAvailable && o.grantsIgnoreAfk(u)
  }

  /** The calls the private event(player) method makes for u at time t: the
      permission lookup when it was not cached, then hasIgnorePermission for
      an exempt player or performedAction for any other. */
  function ActivityCalls(u: Uuid, t: Millis, lookedUp: bool, ignored: bool): (log: seq<Effect>)
    ensures 1 <= |log| <= 2
    ensures Count(log, PermissionChecked(u)) == if lookedUp then 1 else 0
    ensures ignored ==> HasIgnorePermission(u) in log && forall e | e in log :: !e.PerformedAction?
    ensures !ignored ==> Count(log, PerformedAction(u, t)) == 1 && HasIgnorePermission(u) !in log
    ensures ignored ==> Count(log, HasIgnorePermission(u)) == 1
    ensures lookedUp ==> log[0] == PermissionChecked(u)
    ensures forall e | e in log :: e == PermissionChecked(u) || e == HasIgnorePermission(u) || e == PerformedAction(u, t)
  {
    (if lookedUp then [PermissionChecked(u)] else [])
      + (if ignored then [HasIgnorePermission(u)] else [PerformedAction(u, t)])
  }

  /** The permission cache after event(player) for u: a cached entry is kept,
      an absent one is filled with the permission check's answer. */
  function CachePermission(cache: map<Uuid, bool>, u: Uuid, o: Oracles): (m: map<Uuid, bool>)
    ensures m.Keys == cache.Keys + {u}
    ensures forall v :: v in cache && v != u ==> m[v] == cache[v]
    ensures u in cache ==> m[u] == cache[u]
    ensures u !in cache ==> m[u] == CheckPermission(o, u)
  {
    if u in cache then cache else cache[u := CheckPermission(o, u)]
  }

  /** The private event(player) method: look the ignore permission up once and
      cache it, then either tell the tracker the player is exempt or record
      an action at time t. */
  function Activity(s: Listener, u: Uuid, t: Millis, o: Oracles): (r: Transition)
    ensures r.next == s.(ignorePermissionInfo := r.next.ignorePermissionInfo)
    ensures r.next.ignorePermissionInfo.Keys == s.ignorePermissionInfo.Keys + {u}
    ensures forall v :: v in s.ignorePermissionInfo && v != u ==>
              r.next.ignorePermissionInfo[v] == s.ignorePermissionInfo[v]
    ensures u in s.ignorePermissionInfo ==>
              r.next.ignorePermissionInfo[u] == s.ignorePermissionInfo[u] && PermissionChecked(u) !in r.effects
    ensures u !in s.ignorePermissionInfo ==>
              r.next.ignorePermissionInfo[u] == CheckPermission(o, u) && Count(r.effects, PermissionChecked(u)) == 1
    ensures r.next.ignorePermissionInfo[u] ==>
              HasIgnorePermission(u) in r.effects && forall e | e in r.effects :: !e.PerformedAction?
    ensures !r.next.ignorePermissionInfo[u] ==>
              Count(r.effects, PerformedAction(u, t)) == 1 && HasIgnorePermission(u) !in r.effects
    ensures |r.effects| <= 2
    ensures forall e | e in r.effects :: e == PermissionChecked(u) || e == HasIgnorePermission(u) || e == PerformedAction(u, t)
    ensures forall e | e in r.effects :: e.player == u
  {
    var m := CachePermission(s.ignorePermissionInfo, u, o);
    Transition(s.(ignorePermissionInfo := m), ActivityCalls(u, t, u !in s.ignorePermissionInfo, m[u]))
  }

  /** The command text, lower-cased, starts with "afk". */
  function IsAfkCommand(input: string): (r: bool)
    ensures r <==> |input| >= 3 && LowerChar(input[0]) == 'a' && LowerChar(input[1]) == 'f' && LowerChar(input[2]) == 'k'
  {
    StartsWith(ToLower(input), "afk")
  }

  /** The effects a handled command adds after the activity handling of its player. */
  function CommandTail(src: CommandSource.Source, input: string, t': Millis): (r: seq<Effect>)
    requires CommandSource.IsPlayer(src)
    ensures forall f | f in r :: f.UsedAfkCommand?
  {
    if IsAfkCommand(input) then [UsedAfkCommand(CommandSource.GetUuid(src).value, t')] else []
  }

  /** The sample handed to moved: each packet field when the packet carries it,
      the stored sample's value otherwise. As in the listener, the packet's
      x-rotation falls back to the stored yaw and its y-rotation to the pitch. */
  function Reconstruct(p: MovePacket, stored: Sample): (r: Sample)
    ensures !p.hasPos && !p.hasRot ==> r == stored
    ensures p.hasPos ==> r.x == p.x && r.y == p.y && r.z == p.z
    ensures p.hasRot ==> r.yaw == p.xRot && r.pitch == p.yRot
    ensures p.hasPos && p.hasRot ==> r == Sample(p.x, p.y, p.z, p.xRot, p.yRot)
  {
    Sample(
      if p.hasPos then p.x else stored.x,
      if p.hasPos then p.y else stored.y,
      if p.hasPos then p.z else stored.z,
      if p.hasRot then p.xRot else stored.yaw,
      if p.hasRot then p.yRot else stored.pitch)
  }

  /** The handler for e runs: it is on the bus and the listener is enabled. */
  predicate Handles(s: Listener, e: Event)
  {
    HandlerKind(e) in s.handlers && s.enabled
  }

  /** One event delivered by the bus to this listener's handlers. */
  function Step(s: Listener, e: Event, o: Oracles): (r: Transition)
    ensures !Handles(s, e) ==> r == Transition(s, [])
    ensures r.next.enabled == s.enabled && r.next.registered == s.registered && r.next.handlers == s.handlers
  {
    if !Handles(s, e) then Transition(s, [])
    else
      match e
      case ChatEvent(u, t) => Activity(s, u, t, o)
      case CommandEvent(src, input, t, t') =>
        if CommandSource.IsPlayer(src) then
          var u := CommandSource.GetUuid(src).value;
          var a := Activity(s, u, t, o);
          Transition(a.next, a.effects + CommandTail(src, input, t'))
        else Transition(s, [])
      case LoggedOutEvent(u) => Transition(s.(ignorePermissionInfo := s.ignorePermissionInfo - {u}), [])
      case MoveEvent(u, p, t) =>
        if o.moved(u, Reconstruct(p, o.storedSample(u))) then Activity(s, u, t, o)
        else Transition(s, [])
  }

  /** A sequence of events, each with its collaborators' answers, in order. */
  function Run(s: Listener, inputs: seq<Input>): (r: Transition)
    decreases |inputs|
  {
    if |inputs| == 0 then Transition(s, [])
    else
      var first := Step(s, inputs[0].event, inputs[0].oracles);
      var rest := Run(first.next, inputs[1..]);
      Transition(rest.next, first.effects + rest.effects)
  }

  // ---------------------------------------------------------------------------
  // Properties

  /** Constructing the listener again keeps the tracker the first construction made. */
  lemma ConstructReusesTracker(c1: ConfigId, c2: ConfigId, tracker: Option<Tracker>)
    ensures Construct(c2, Construct(c1, tracker).1).1 == Construct(c1, tracker).1
    ensures tracker.None? ==> Construct(c2, Construct(c1, tracker).1).1 == Some(Tracker(c1))
  {
  }

  /** A second register changes nothing and adds no handler. */
  lemma RegisterIdempotent(s: Listener)
    requires Valid(s)
    ensures Register(Register(s)) == Register(s)
    ensures Register(s).handlers == Subscriptions
  {
  }

  /** Every step, and hence every run, keeps the registration state valid. */
  lemma {:induction false} RunKeepsValid(s: Listener, inputs: seq<Input>)
    requires Valid(s)
    ensures Valid(Run(s, inputs).next)
    ensures Run(s, inputs).next.enabled == s.enabled
    decreases |inputs|
  {
    if |inputs| > 0 {
      RunKeepsValid(Step(s, inputs[0].event, inputs[0].oracles).next, inputs[1..]);
    }
  }

  /** While the listener is disabled, or before it is registered, no event has any effect. */
  lemma {:induction false} InactiveRunIsInert(s: Listener, inputs: seq<Input>)
    requires Valid(s)
    requires !s.enabled || !s.registered
    ensures Run(s, inputs) == Transition(s, [])
    decreases |inputs|
  {
    if |inputs| > 0 {
      InactiveRunIsInert(s, inputs[1..]);
    }
  }

  /** A command from a player reaches the tracker's usedAfkCommand exactly when
      its lower-cased text starts with "afk", whether or not the player is
      exempt; a command from the console or another entity does nothing. */
  lemma AfkCommand(s: Listener, src: CommandSource.Source, input: string, t: Millis, t': Millis, o: Oracles)
    requires Handles(s, CommandEvent(src, input, t, t'))
    ensures var r := Step(s, CommandEvent(src, input, t, t'), o);
      && (!CommandSource.IsPlayer(src) ==> r == Transition(s, []))
      && (CommandSource.IsPlayer(src) ==>
            (UsedAfkCommand(CommandSource.GetUuid(src).value, t') in r.effects <==> IsAfkCommand(input)))
  {
  }

  /** The lower-cased text starts with "afk" exactly when its first three
      characters are a, f and k in either case. */
  lemma AfkCommandLetters(input: string)
    ensures IsAfkCommand(input) <==>
      |input| >= 3 && input[0] in "aA" && input[1] in "fF" && input[2] in "kK"
  {
  }

  /** Logging out drops only that player's cached permission. */
  lemma LogoutForgetsOnlyThatPlayer(s: Listener, u: Uuid, o: Oracles)
    requires Handles(s, LoggedOutEvent(u))
    ensures var r := Step(s, LoggedOutEvent(u), o);
      && r.effects == []
      && u !in r.next.ignorePermissionInfo
      && r.next.ignorePermissionInfo.Keys == s.ignorePermissionInfo.Keys - {u}
      && forall v :: v in s.ignorePermissionInfo && v != u ==>
           r.next.ignorePermissionInfo[v] == s.ignorePermissionInfo[v]
  {
  }

  /** A move counts as activity exactly when the position tracker reports
      movement for the reconstructed sample: then it is the activity handling
      of the player at the move's time, with the event's collaborators;
      otherwise nothing changes. */
  lemma MoveIsActivityIffMoved(s: Listener, u: Uuid, p: MovePacket, t: Millis, o: Oracles)
    requires Handles(s, MoveEvent(u, p, t))
    ensures var r := Step(s, MoveEvent(u, p, t), o);
      && (o.moved(u, Reconstruct(p, o.storedSample(u))) <==> r.effects != [])
      && (o.moved(u, Reconstruct(p, o.storedSample(u))) ==> r == Activity(s, u, t, o))
      && (r.effects == [] ==> r.next == s)
      && (r.effects != [] ==> u in r.next.ignorePermissionInfo)
  {
  }

  /** A chat message is the activity handling of its sender at the message's time. */
  lemma ChatIsActivity(s: Listener, u: Uuid, t: Millis, o: Oracles)
    requires Handles(s, ChatEvent(u, t))
    ensures Step(s, ChatEvent(u, t), o) == Activity(s, u, t, o)
  {
  }

  /** A player's command is the activity handling of that player at the first
      clock read, followed by usedAfkCommand at the second read when the
      command is an afk command, and by nothing else. */
  lemma CommandIsActivity(s: Listener, src: CommandSource.Source, input: string, t: Millis, t': Millis, o: Oracles)
    requires Handles(s, CommandEvent(src, input, t, t'))
    requires CommandSource.IsPlayer(src)
    ensures var u := CommandSource.GetUuid(src).value;
      var a := Activity(s, u, t, o);
      var r := Step(s, CommandEvent(src, input, t, t'), o);
      && r.next == a.next
      && |a.effects| <= |r.effects| <= |a.effects| + 1
      && r.effects[..|a.effects|] == a.effects
      && (|r.effects| == |a.effects| + 1 <==> IsAfkCommand(input))
      && (IsAfkCommand(input) ==> r.effects[|a.effects|] == UsedAfkCommand(u, t'))
  {
  }

  /** Fields the packet leaves out are taken from the stored sample; fields it
      carries replace it. */
  lemma ReconstructDefaults(p: MovePacket, stored: Sample)
    ensures var r := Reconstruct(p, stored);
      && (p.hasPos ==> r.x == p.x && r.y == p.y && r.z == p.z)
      && (!p.hasPos ==> r.x == stored.x && r.y == stored.y && r.z == stored.z)
      && (p.hasRot ==> r.yaw == p.xRot && r.pitch == p.yRot)
      && (!p.hasRot ==> r.yaw == stored.yaw && r.pitch == stored.pitch)
      && (!p.hasPos && !p.hasRot ==> r == stored)
  {
  }

  /** No logout event for u among the inputs. */
  predicate StaysOnline(inputs: seq<Input>, u: Uuid)
  {
    forall i :: 0 <= i < |inputs| ==> !(inputs[i].event.LoggedOutEvent? && inputs[i].event.player == u)
  }

  /** Handling activity for v looks u's permission up exactly when it adds u to the cache. */
  lemma ActivityLookups(s: Listener, v: Uuid, t: Millis, o: Oracles, u: Uuid, tail: seq<Effect>)
    requires PermissionChecked(u) !in tail
    ensures var a := Activity(s, v, t, o);
      Count(a.effects + tail, PermissionChecked(u)) ==
        if u !in s.ignorePermissionInfo && u in a.next.ignorePermissionInfo then 1 else 0
  {
    var a := Activity(s, v, t, o);
    assert Count(a.effects + tail, PermissionChecked(u)) == Count(a.effects, PermissionChecked(u));
    if v != u {
      assert PermissionChecked(u) !in a.effects;
    }
  }

  /** A step looks u's permission up exactly when it adds u to the cache. */
  lemma StepLookups(s: Listener, e: Event, o: Oracles, u: Uuid)
    ensures var r := Step(s, e, o);
      Count(r.effects, PermissionChecked(u)) ==
        if u !in s.ignorePermissionInfo && u in r.next.ignorePermissionInfo then 1 else 0
  {
    var r := Step(s, e, o);
    if Handles(s, e) {
      match e
      case ChatEvent(v, t) =>
        assert r == Activity(s, v, t, o);
        ActivityLookups(s, v, t, o, u, []);
        assert r.effects + [] == r.effects;
      case CommandEvent(src, input, t, t') =>
        CommandLookups(s, src, input, t, t', o, u);
      case LoggedOutEvent(v) =>
      case MoveEvent(v, p, t) =>
        if o.moved(v, Reconstruct(p, o.storedSample(v))) {
          assert r == Activity(s, v, t, o);
          ActivityLookups(s, v, t, o, u, []);
          assert r.effects + [] == r.effects;
        }
    }
  }

  /** A handled command looks u's permission up exactly when it adds u to the cache. */
  lemma CommandLookups(s: Listener, src: CommandSource.Source, input: string, t: Millis, t': Millis, o: Oracles, u: Uuid)
    requires Handles(s, CommandEvent(src, input, t, t'))
    ensures var r := Step(s, CommandEvent(src, input, t, t'), o);
      Count(r.effects, PermissionChecked(u)) ==
        if u !in s.ignorePermissionInfo && u in r.next.ignorePermissionInfo then 1 else 0
  {
    if CommandSource.IsPlayer(src) {
      var v := CommandSource.GetUuid(src).value;
      var a := Activity(s, v, t, o);
      assert Step(s, CommandEvent(src, input, t, t'), o) == Transition(a.next, a.effects + CommandTail(src, input, t'));
      ActivityLookups(s, v, t, o, u, CommandTail(src, input, t'));
    }
  }

  /** Handling activity for any player keeps u's cached permission, and resets
      no idle timer of u when that permission exempts u. */
  lemma ActivityKeepsCachedPermission(s: Listener, v: Uuid, t: Millis, o: Oracles, u: Uuid, tail: seq<Effect>)
    requires u in s.ignorePermissionInfo
    requires forall f | f in tail :: !ActsFor(f, u)
    ensures var a := Activity(s, v, t, o);
      && u in a.next.ignorePermissionInfo
      && a.next.ignorePermissionInfo[u] == s.ignorePermissionInfo[u]
      && (s.ignorePermissionInfo[u] ==> forall f | f in a.effects + tail :: !ActsFor(f, u))
  {
  }

  /** What a step keeps of u's cached permission: the entry itself, and no
      reset of u's idle timer while that permission exempts u. */
  predicate KeepsCachedPermission(s: Listener, r: Transition, u: Uuid)
    requires u in s.ignorePermissionInfo
  {
    && u in r.next.ignorePermissionInfo
    && r.next.ignorePermissionInfo[u] == s.ignorePermissionInfo[u]
    && (s.ignorePermissionInfo[u] ==> forall f | f in r.effects :: !ActsFor(f, u))
  }

  /** A handled player command keeps u's cached permission. */
  lemma CommandKeepsCachedPermission(s: Listener, src: CommandSource.Source, input: string, t: Millis, t': Millis,
                                     o: Oracles, u: Uuid)
    requires u in s.ignorePermissionInfo
    requires Handles(s, CommandEvent(src, input, t, t')) && CommandSource.IsPlayer(src)
    ensures KeepsCachedPermission(s, Step(s, CommandEvent(src, input, t, t'), o), u)
  {
    var v := CommandSource.GetUuid(src).value;
    var a := Activity(s, v, t, o);
    ActivityKeepsCachedPermission(s, v, t, o, u, CommandTail(src, input, t'));
    assert Step(s, CommandEvent(src, input, t, t'), o) == Transition(a.next, a.effects + CommandTail(src, input, t'));
  }

  /** A step that is not u's logout keeps u's cached permission, and does not
      reset u's idle timer when that permission exempts u. */
  lemma StepKeepsCachedPermission(s: Listener, e: Event, o: Oracles, u: Uuid)
    requires u in s.ignorePermissionInfo
    requires !(e.LoggedOutEvent? && e.player == u)
    ensures var r := Step(s, e, o);
      && u in r.next.ignorePermissionInfo
      && r.next.ignorePermissionInfo[u] == s.ignorePermissionInfo[u]
      && (s.ignorePermissionInfo[u] ==> forall f | f in r.effects :: !ActsFor(f, u))
  {
    var r := Step(s, e, o);
    if Handles(s, e) {
      match e
      case ChatEvent(v, t) =>
        ActivityKeepsCachedPermission(s, v, t, o, u, []);
        assert r.effects == Activity(s, v, t, o).effects + [];
      case CommandEvent(src, input, t, t') =>
        if CommandSource.IsPlayer(src) {
          CommandKeepsCachedPermission(s, src, input, t, t', o, u);
        }
      case LoggedOutEvent(v) =>
      case MoveEvent(v, p, t) =>
        if o.moved(v, Reconstruct(p, o.storedSample(v))) {
          ActivityKeepsCachedPermission(s, v, t, o, u, []);
          assert r.effects == Activity(s, v, t, o).effects + [];
        }
    }
    assert KeepsCachedPermission(s, r, u);
  }

  /** Dropping the first input keeps u online. */
  lemma StaysOnlineTail(inputs: seq<Input>, u: Uuid)
    requires |inputs| > 0 && StaysOnline(inputs, u)
    ensures StaysOnline(inputs[1..], u)
  {
  }

  /** While u stays online, u's permission is looked up at most once: exactly
      once if u entered the cache during the run, never if u was already in it. */
  lemma {:induction false} PermissionLookedUpOnce(s: Listener, inputs: seq<Input>, u: Uuid)
    requires StaysOnline(inputs, u)
    ensures var r := Run(s, inputs);
      && (u in s.ignorePermissionInfo ==>
            u in r.next.ignorePermissionInfo && r.next.ignorePermissionInfo[u] == s.ignorePermissionInfo[u])
      && Count(r.effects, PermissionChecked(u)) ==
           if u !in s.ignorePermissionInfo && u in r.next.ignorePermissionInfo then 1 else 0
    decreases |inputs|
  {
    if |inputs| > 0 {
      var e, o := inputs[0].event, inputs[0].oracles;
      var first := Step(s, e, o);
      var rest := Run(first.next, inputs[1..]);
      assert Run(s, inputs) == Transition(rest.next, first.effects + rest.effects);
      var c := PermissionChecked(u);
      assert Count(first.effects + rest.effects, c) == Count(first.effects, c) + Count(rest.effects, c);
      StepLookups(s, e, o, u);
      StaysOnlineTail(inputs, u);
      PermissionLookedUpOnce(first.next, inputs[1..], u);
      if u in s.ignorePermissionInfo || u in first.next.ignorePermissionInfo {
        assert !(e.LoggedOutEvent? && e.player == u) by {
          assert inputs[0].event == e;
        }
        if u in s.ignorePermissionInfo {
          StepKeepsCachedPermission(s, e, o, u);
        }
      }
    }
  }

  /** A player whose cached permission exempts them never has performedAction
      called for them until they log out. */
  lemma {:induction false} ExemptPlayerNeverActs(s: Listener, inputs: seq<Input>, u: Uuid)
    requires u in s.ignorePermissionInfo && s.ignorePermissionInfo[u]
    requires StaysOnline(inputs, u)
    ensures forall f | f in Run(s, inputs).effects :: !ActsFor(f, u)
    decreases |inputs|
  {
    if |inputs| > 0 {
      var first := Step(s, inputs[0].event, inputs[0].oracles);
      StepKeepsCachedPermission(s, inputs[0].event, inputs[0].oracles, u);
      StaysOnlineTail(inputs, u);
      ExemptPlayerNeverActs(first.next, inputs[1..], u);
    }
  }
}

=== FILE: command_source.dfy ===
/** The sender view Plan grafts onto Minecraft's CommandSourceStack: who issued
    a command (the console, a player, or some other entity), the sender's
    identity, and the equality and hash code that let senders be map keys. */
module CommandSource {
  import opened Common

  /** The entity behind a command source. */
  datatype Entity =
    | ServerPlayer(uuid: Uuid, name: string)
    | OtherEntity(uuid: Uuid)

  /** A CommandSourceStack; its entity is null when the console issued the command. */
  datatype Source = Source(entity: Option<Entity>)

  /** The argument of equals(Object): another command source, or anything else. */
  datatype Object = SourceObject(source: Source) | NonSourceObject

  datatype Formatter = ConsoleChatFormatter | PlayerChatFormatter

  /** The three kinds of sender, with the identity that distinguishes players. */
  datatype SenderKind = Console | Player(id: Uuid) | NonPlayerEntity

  /** An independent classification of a source, used to characterise equals. */
  function KindOf(s: Source): SenderKind
  {
    match s.entity
    case None => Console
    case Some(ServerPlayer(u, _)) => Player(u)
    case Some(OtherEntity(_)) => NonPlayerEntity
  }

  /** getPlayer: the entity when it is a server player. */
  function GetPlayer(s: Source): (r: Option<Entity>)
    ensures r.Some? <==> KindOf(s).Player?
    ensures r.Some? ==> r.value.ServerPlayer? && r.value.uuid == KindOf(s).id && s.entity == r
  {
    if s.entity.Some? && s.entity.value.ServerPlayer? then s.entity else None
  }

  /** isPlayer: getPlayer is present. */
  function IsPlayer(s: Source): (r: bool)
    ensures r <==> KindOf(s).Player?
  {
    GetPlayer(s).Some?
  }

  /** isConsole: the source has no entity. */
  function IsConsole(s: Source): (r: bool)
    ensures r <==> KindOf(s) == Console
  {
    s.entity.None?
  }

  /** supportsChatEvents: delegates to isPlayer. */
  function SupportsChatEvents(s: Source): (r: bool)
    ensures r <==> KindOf(s).Player?
  {
    IsPlayer(s)
  }

  /** getUUID: the player's UUID, empty for the console and for non-player entities. */
  function GetUuid(s: Source): (r: Option<Uuid>)
    ensures r.Some? <==> IsPlayer(s)
    ensures r.Some? ==> KindOf(s) == Player(r.value)
  {
    match GetPlayer(s)
    case None => None
    case Some(p) => Some(p.uuid)
  }

  /** getPlayerName: the player's name, empty unless the source is a player. */
  function GetPlayerName(s: Source): (r: Option<string>)
    ensures r.Some? <==> IsPlayer(s)
    ensures r.Some? ==> s.entity.Some? && s.entity.value.ServerPlayer? && r.value == s.entity.value.name
  {
    match GetPlayer(s)
    case None => None
    case Some(p) => Some(p.name)
  }

  /** getFormatter: console formatting for the console, player formatting otherwise. */
  function GetFormatter(s: Source): (r: Formatter)
    ensures r == ConsoleChatFormatter <==> KindOf(s) == Console
    ensures r == PlayerChatFormatter <==> KindOf(s) != Console
  {
    if IsConsole(s) then ConsoleChatFormatter else PlayerChatFormatter
  }

  /** equals(Object): same console flag and same optional UUID. */
  function Equals(a: Source, obj: Object): (r: bool)
    ensures r ==> obj.SourceObject?
    ensures obj.SourceObject? ==> (r <==> KindOf(a) == KindOf(obj.source))
  {
    obj.SourceObject? && IsConsole(a) == IsConsole(obj.source) && GetUuid(a) == GetUuid(obj.source)
  }

  // ---------------------------------------------------------------------------
  // hashCode, on the 32 bits of a Java int

  /** Boolean.hashCode. */
  function BooleanHash(b: bool): bv32
  {
    if b then 1231 else 1237
  }

  /** UUID.hashCode: the two 32-bit halves of msb ^ lsb, xor-ed together. */
  function UuidHash(u: Uuid): bv32
  {
    var hilo := u.msb ^ u.lsb;
    ((hilo >> 32) as bv32) ^ ((hilo & 0xFFFF_FFFF) as bv32)
  }

  /** Optional.hashCode: 0 when empty, the value's hash code otherwise. */
  function OptionalUuidHash(o: Option<Uuid>): bv32
  {
    match o
    case None => 0
    case Some(u) => UuidHash(u)
  }

  /** hashCode: Boolean.hashCode(isConsole()) + getUUID().hashCode(). The Java
      int is represented by its 32 bits, so the addition wraps as Java's does. */
  function HashCode(s: Source): (r: bv32)
    ensures KindOf(s) == Console ==> r == 1231
    ensures KindOf(s) == NonPlayerEntity ==> r == 1237
    ensures KindOf(s).Player? ==> r == BooleanHash(false) + UuidHash(KindOf(s).id)
  {
    BooleanHash(IsConsole(s)) + OptionalUuidHash(GetUuid(s))
  }

  // ---------------------------------------------------------------------------
  // Properties

  /** Every source is exactly one of console, player or non-player entity, and
      the predicates the mixin exposes agree with that classification. */
  lemma Classification(s: Source)
    ensures IsConsole(s) <==> KindOf(s) == Console
    ensures IsPlayer(s) <==> KindOf(s).Player?
    ensures !(IsConsole(s) && IsPlayer(s))
    ensures s.entity.Some? && s.entity.value.OtherEntity? ==> !IsConsole(s) && !IsPlayer(s)
    ensures SupportsChatEvents(s) == IsPlayer(s)
    ensures IsConsole(s) ==> GetUuid(s) == None && GetPlayerName(s) == None
  {
  }

  /** Two sources are equal exactly when they are of the same kind, and, when
      both are players, have the same UUID. */
  lemma EqualsMeansSameKind(a: Source, b: Source)
    ensures Equals(a, SourceObject(b)) <==> KindOf(a) == KindOf(b)
  {
  }

  /** Two distinct non-player entities (say, two different mobs running a
      command) are equal senders with equal hash codes. */
  lemma NonPlayerEntitiesAreEqual(a: Source, b: Source)
    requires a.entity.Some? && a.entity.value.OtherEntity?
    requires b.entity.Some? && b.entity.value.OtherEntity?
    ensures Equals(a, SourceObject(b))
    ensures HashCode(a) == HashCode(b) == 1237
  {
  }

  /** equals is reflexive, symmetric and transitive over command sources. */
  lemma EqualsIsEquivalence(a: Source, b: Source, c: Source)
    ensures Equals(a, SourceObject(a))
    ensures Equals(a, SourceObject(b)) ==> Equals(b, SourceObject(a))
    ensures Equals(a, SourceObject(b)) && Equals(b, SourceObject(c)) ==> Equals(a, SourceObject(c))
  {
  }

  /** A source is never equal to an object that is not a command source. */
  lemma NotEqualToOtherObjects(a: Source)
    ensures !Equals(a, NonSourceObject)
  {
  }

  /** Two players' hash codes are equal exactly when their UUIDs' hash codes are. */
  lemma PlayerHashFollowsUuid(a: Source, b: Source)
    requires KindOf(a).Player? && KindOf(b).Player?
    ensures HashCode(a) == HashCode(b) <==> UuidHash(KindOf(a).id) == UuidHash(KindOf(b).id)
  {
  }

  /** Equal sources have equal hash codes. */
  lemma EqualsImpliesEqualHash(a: Source, b: Source)
    requires Equals(a, SourceObject(b))
    ensures HashCode(a) == HashCode(b)
  {
  }
}

=== FILE: common.dfy ===
/** Identifiers shared by the Forge listeners, Java's nullable values, and the
    log of calls the listeners make into collaborators this model keeps
    opaque: the AFK tracker, the position tracker, the join and leave event
    consumers and the database's transaction queue. */
module Common {

  /** A Java reference that may be null, or a java.util.Optional. */
  datatype Option<+T> = None | Some(value: T)

  /** A java.util.UUID: its most and least significant 64 bits. */
  datatype Uuid = Uuid(msb: bv64, lsb: bv64)

  /** The identity of this game server, as ServerInfo reports it. */
  datatype ServerId = ServerId(id: Uuid)

  /** A reading of System.currentTimeMillis; the model never computes with it. */
  type Millis = int

  /** One call made by a listener into a collaborator, in the order it was made. */
  datatype Effect =
    // AFKTracker.performedAction(uuid, time)
    | PerformedAction(player: Uuid, time: Millis)
    // AFKTracker.hasIgnorePermission(uuid)
    | HasIgnorePermission(player: Uuid)
    // AFKTracker.usedAfkCommand(uuid, time)
    | UsedAfkCommand(player: Uuid, time: Millis)
    // AFKTracker.loggedOut(uuid, time)
    | LoggedOut(player: Uuid, time: Millis)
    // the ignore-AFK permission of a player was looked up (checkPermission)
    | PermissionChecked(player: Uuid)
    // ForgePlayerPositionTracker.removePlayer(uuid)
    | RemovePosition(player: Uuid)
    // a BanStatusTransaction queued on the database
    | BanStatus(player: Uuid, server: ServerId, banned: bool)
    // a KickStoreTransaction queued on the database
    | KickStore(player: Uuid)
    // PlayerJoinEventConsumer.onJoinGameServer with the join address it carries
    | JoinGameServer(server: ServerId, player: Uuid, address: Option<string>, time: Millis)
    // PlayerLeaveEventConsumer.beforeLeave
    | BeforeLeave(server: ServerId, player: Uuid, time: Millis)
    // PlayerLeaveEventConsumer.onLeaveGameServer
    | LeaveGameServer(server: ServerId, player: Uuid, time: Millis)

  /** True when the effect resets the idle timer of player u. */
  predicate ActsFor(e: Effect, u: Uuid)
  {
    e.PerformedAction? && e.player == u
  }

  /** Number of occurrences of e in the log. */
  function Count(log: seq<Effect>, e: Effect): (n: nat)
    ensures n == 0 <==> e !in log
  {
    multiset(log)[e]
  }
}

=== FILE: online_listener.dfy ===
/** PlayerOnlineListener: correlates the hostname a client names in its LOGIN
    handshake with the player who then logs in, records ban status and kicks,
    and reports joins and quits to the session consumers.

    The listener keeps one join-address slot shared by every connection, and
    writes it into the join-address cache at login. Which players the AFK
    tracker considers idle arrives as an oracle with each event; the calls
    made into the trackers, the consumers and the database go to an effect
    log. */
module OnlineListener {
  import opened Common
  import opened Text

  // ---------------------------------------------------------------------------
  // Events and state

  /** The ConnectionProtocol a client asks for in its handshake. */
  datatype Protocol = Handshaking | Play | Status | Login

  /** A ClientIntentionPacket: the requested protocol and the hostname the
      client connected to, which Java lets be null. */
  datatype IntentionPacket = IntentionPacket(intention: Protocol, hostName: Option<string>)

  datatype Event =
    // PlayerLoggedInEvent: the player has joined the world
    | LoggedInEvent(player: Uuid, time: Millis)
    // PlayerLoggedOutEvent; beforeTime and quitTime are the two clock reads it makes
    | LoggedOutEvent(player: Uuid, beforeTime: Millis, quitTime: Millis)
    // PlayerKickEvent, with the targets in the order the collection yields them
    | KickEvent(targets: seq<Uuid>)
    // PlayerLoginEvent; rejection is the disconnect component, non-null for a refused (banned) login
    | LoginEvent(profileId: Uuid, rejection: Option<string>)
    // PlayerHandshakeEvent
    | HandshakeEvent(packet: IntentionPacket)

  /** The event kinds the listener subscribes to on the event bus. */
  datatype Kind = LoggedInKind | LoggedOutKind | KickKind | LoginKind | HandshakeKind

  /** The handlers register adds, in the order it adds them. */
  const Subscriptions: seq<Kind> := [LoggedInKind, LoggedOutKind, KickKind, LoginKind, HandshakeKind]

  datatype Listener = Listener(
    // ServerInfo's identity of this server
    server: ServerId,
    // the single AtomicReference<String> joinAddress
    joinAddress: Option<string>,
    // JoinAddressCache: the address recorded for each player at login
    joinAddressCache: map<Uuid, Option<string>>,
    enabled: bool,
    registered: bool,
    // the handlers this listener has added to the event bus
    handlers: seq<Kind>)

  /** One event together with the AFK tracker's isAfk answers while it is handled. */
  datatype Input = Input(event: Event, isAfk: Uuid -> bool)

  datatype Transition = Transition(next: Listener, effects: seq<Effect>)

  /** The bus handler an event is delivered to. */
  function HandlerKind(e: Event): Kind
  {
    match e
    case LoggedInEvent(_, _) => LoggedInKind
    case LoggedOutEvent(_, _, _) => LoggedOutKind
    case KickEvent(_) => KickKind
    case LoginEvent(_, _) => LoginKind
    case HandshakeEvent(_) => HandshakeKind
  }

  /** The handlers registered on the bus exist exactly when register has run. */
  predicate Valid(s: Listener)
  {
    s.handlers == if s.registered then Subscriptions else []
  }

  // ---------------------------------------------------------------------------
  // Construction, registration, enabling

  /** The injected constructor: an empty slot, not yet enabled or registered. */
  function New(server: ServerId, cache: map<Uuid, Option<string>>): (r: Listener)
    ensures Valid(r) && !r.enabled && !r.registered && r.joinAddress.None?
    ensures r.server == server && r.joinAddressCache == cache
  {
    Listener(server, None, cache, false, false, [])
  }

  /** register: adds the five handlers and enables the listener, once. */
  function Register(s: Listener): (r: Listener)
    ensures s.registered ==> r == s
    ensures !s.registered ==> r.registered && r.enabled && r.handlers == s.handlers + Subscriptions
    ensures r.joinAddress == s.joinAddress && r.joinAddressCache == s.joinAddressCache
    ensures r.server == s.server
    ensures Valid(s) ==> Valid(r)
  {
    if s.registered then s
    else s.(enabled := true, registered := true, handlers := s.handlers + Subscriptions)
  }

  function Enable(s: Listener): (r: Listener)
    ensures r.enabled && r.(enabled := s.enabled) == s
  {
    s.(enabled := true)
  }

  function Disable(s: Listener): (r: Listener)
    ensures !r.enabled && r.(enabled := s.enabled) == s
  {
    s.(enabled := false)
  }

  // ---------------------------------------------------------------------------
  // Handlers

  /** The hostname a handshake stores: cut at its first NUL character, if any;
      a null hostname stays null. */
  function StoredHostName(h: Option<string>): (r: Option<string>)
    ensures r.Some? <==> h.Some?
    ensures h.Some? ==> Nul !in r.value
    ensures h.Some? ==> r.value <= h.value
    ensures h.Some? ==> |r.value| == |h.value| || h.value[|r.value|] == Nul
  {
    if h.Some? && Nul in h.value then Some(h.value[..IndexOf(h.value, Nul)]) else h
  }

  /** onHandshake: a LOGIN handshake overwrites the slot; any other leaves it. */
  function OnHandshake(s: Listener, p: IntentionPacket): (r: Listener)
    ensures p.intention != Login ==> r == s
    ensures p.intention == Login ==> r == s.(joinAddress := StoredHostName(p.hostName))
  {
    if p.intention == Login then s.(joinAddress := StoredHostName(p.hostName)) else s
  }

  /** onPlayerLogin: record the slot's address for the profile and queue one
      ban-status transaction, banned when the login carries a rejection. */
  function OnLogin(s: Listener, id: Uuid, rejection: Option<string>): (r: Transition)
    ensures r.next.joinAddressCache.Keys == s.joinAddressCache.Keys + {id}
    ensures r.next.joinAddressCache[id] == s.joinAddress
    ensures forall v :: v in s.joinAddressCache && v != id ==> r.next.joinAddressCache[v] == s.joinAddressCache[v]
    ensures r.next.joinAddress == s.joinAddress
    ensures r.effects == [BanStatus(id, s.server, rejection.Some?)]
  {
    Transition(s.(joinAddressCache := s.joinAddressCache[id := s.joinAddress]),
               [BanStatus(id, s.server, rejection.Some?)])
  }

  /** onPlayerKick for each target in turn: a kick store for every target the
      AFK tracker does not consider idle. */
  function KickStores(targets: seq<Uuid>, isAfk: Uuid -> bool): (r: seq<Effect>)
    ensures forall e | e in r :: e.KickStore? && e.player in targets && !isAfk(e.player)
    ensures |r| <= |targets|
  {
    if |targets| == 0 then []
    else (if isAfk(targets[0]) then [] else [KickStore(targets[0])]) + KickStores(targets[1..], isAfk)
  }

  /** The address the join-address cache holds for u (getNullableString). */
  function CachedAddress(s: Listener, u: Uuid): (r: Option<string>)
    ensures u !in s.joinAddressCache ==> r.None?
    ensures r.Some? ==> u in s.joinAddressCache && s.joinAddressCache[u] == r
    ensures u in s.joinAddressCache ==> r == s.joinAddressCache[u]
  {
    if u in s.joinAddressCache then s.joinAddressCache[u] else None
  }

  /** actOnJoinEvent: mark activity, then report the join with the cached address, both at time t. */
  function OnJoin(s: Listener, u: Uuid, t: Millis): (r: seq<Effect>)
    ensures |r| == 2
    ensures r[0] == PerformedAction(u, t)
    ensures r[1].JoinGameServer? && r[1].player == u && r[1].time == r[0].time && r[1].server == s.server
    ensures r[1].address == CachedAddress(s, u)
  {
    [PerformedAction(u, t), JoinGameServer(s.server, u, CachedAddress(s, u), t)]
  }

  /** beforePlayerQuit, then actOnQuitEvent: the before-leave notice, the AFK
      tracker's logout, the removal of the stored position, and the leave
      notice, which shares its time with the logout. */
  function OnLogout(s: Listener, u: Uuid, beforeTime: Millis, quitTime: Millis): (r: seq<Effect>)
    ensures |r| == 4
    ensures r[0].BeforeLeave? && r[1].LoggedOut? && r[2].RemovePosition? && r[3].LeaveGameServer?
    ensures forall i :: 0 <= i < 4 ==> r[i].player == u
    ensures r[0].time == beforeTime && r[1].time == r[3].time == quitTime
  {
    [BeforeLeave(s.server, u, beforeTime), LoggedOut(u, quitTime), RemovePosition(u),
     LeaveGameServer(s.server, u, quitTime)]
  }

  /** The handler for e runs: it is on the bus and the listener is enabled. */
  predicate Handles(s: Listener, e: Event)
  {
    HandlerKind(e) in s.handlers && s.enabled
  }

  /** One event delivered by the bus to this listener's handlers. */
  function Step(s: Listener, e: Event, isAfk: Uuid -> bool): (r: Transition)
    ensures !Handles(s, e) ==> r == Transition(s, [])
    ensures r.next.enabled == s.enabled && r.next.registered == s.registered
    ensures r.next.handlers == s.handlers && r.next.server == s.server
    ensures !e.HandshakeEvent? ==> r.next.joinAddress == s.joinAddress
    ensures !e.LoginEvent? ==> r.next.joinAddressCache == s.joinAddressCache
  {
    if !Handles(s, e) then Transition(s, [])
    else
      match e
      case LoggedInEvent(u, t) => Transition(s, OnJoin(s, u, t))
      case LoggedOutEvent(u, t0, t) => Transition(s, OnLogout(s, u, t0, t))
      case KickEvent(targets) => Transition(s, KickStores(targets, isAfk))
      case LoginEvent(id, rejection) => OnLogin(s, id, rejection)
      case HandshakeEvent(p) => Transition(OnHandshake(s, p), [])
  }

  /** A sequence of events, each with the AFK tracker's answers, in order. */
  function Run(s: Listener, inputs: seq<Input>): (r: Transition)
    decreases |inputs|
  {
    if |inputs| == 0 then Transition(s, [])
    else
      var first := Step(s, inputs[0].event, inputs[0].isAfk);
      var rest := Run(first.next, inputs[1..]);
      Transition(rest.next, first.effects + rest.effects)
  }

  // ---------------------------------------------------------------------------
  // Properties

  /** A second register changes nothing and adds no handler. */
  lemma RegisterIdempotent(s: Listener)
    requires Valid(s)
    ensures Register(Register(s)) == Register(s)
    ensures Register(s).handlers == Subscriptions
  {
  }

  /** While the listener is disabled, or before it is registered, no event has
      any effect and the state is left as it was. */
  lemma {:induction false} InactiveRunIsInert(s: Listener, inputs: seq<Input>)
    requires Valid(s)
    requires !s.enabled || !s.registered
    ensures Run(s, inputs) == Transition(s, [])
    decreases |inputs|
  {
    if |inputs| > 0 {
      InactiveRunIsInert(s, inputs[1..]);
    }
  }

  /** The stored hostname is the longest NUL-free prefix: any NUL-free prefix
      of the hostname is a prefix of what is stored. */
  lemma {:induction false} StoredHostNameIsLongest(h: string, p: string)
    requires p <= h && Nul !in p
    ensures p <= StoredHostName(Some(h)).value
  {
  }

  /** A hostname with no NUL is stored unchanged. */
  lemma HostNameWithoutNulUnchanged(h: string)
    requires Nul !in h
    ensures StoredHostName(Some(h)) == Some(h)
  {
  }

  /** The Forge marker after a NUL is cut off. */
  lemma ForgeMarkerIsCut(h: string)
    requires h == "play.example.com\0FML"
    ensures StoredHostName(Some(h)) == Some("play.example.com")
  {
    var r := StoredHostName(Some(h)).value;
    assert h[..16] == "play.example.com";
    StoredHostNameIsLongest(h, h[..16]);
    assert h[16] == Nul;
    assert r == h[..16];
  }

  /** The hostname of the last LOGIN handshake in a run, if there is one. */
  function LastLoginHost(inputs: seq<Input>): Option<Option<string>>
    decreases |inputs|
  {
    if |inputs| == 0 then None
    else
      var last := inputs[|inputs| - 1].event;
      if last.HandshakeEvent? && last.packet.intention == Login then Some(StoredHostName(last.packet.hostName))
      else LastLoginHost(inputs[..|inputs| - 1])
  }

  /** After a run of an active listener, the slot holds the hostname of the last
      LOGIN handshake; with no LOGIN handshake, the slot is as it was. */
  lemma {:induction false} LastLoginHandshakeWins(s: Listener, inputs: seq<Input>)
    requires s.enabled && Valid(s) && s.registered
    ensures var slot := Run(s, inputs).next.joinAddress;
      match LastLoginHost(inputs)
      case None => slot == s.joinAddress
      case Some(h) => slot == h
    decreases |inputs|
  {
    if |inputs| > 0 {
      var init := inputs[..|inputs| - 1];
      var last := inputs[|inputs| - 1];
      RunSplit(s, init, [last]);
      assert init + [last] == inputs;
      LastLoginHandshakeWins(s, init);
      RunKeepsActive(s, init);
    }
  }

  /** Running two sequences in turn is running their concatenation. */
  lemma {:induction false} RunSplit(s: Listener, a: seq<Input>, b: seq<Input>)
    ensures Run(s, a + b).next == Run(Run(s, a).next, b).next
    ensures Run(s, a + b).effects == Run(s, a).effects + Run(Run(s, a).next, b).effects
    decreases |a|
  {
    if |a| > 0 {
      var first := Step(s, a[0].event, a[0].isAfk);
      assert (a + b)[1..] == a[1..] + b;
      assert (a + b)[0] == a[0];
      RunSplit(first.next, a[1..], b);
      var mid := Run(first.next, a[1..]);
      assert Run(s, a) == Transition(mid.next, first.effects + mid.effects);
      var whole := Run(first.next, a[1..] + b);
      assert Run(s, a + b) == Transition(whole.next, first.effects + whole.effects);
    } else {
      assert a + b == b;
    }
  }

  /** No event changes whether the listener is enabled or registered. */
  lemma {:induction false} RunKeepsActive(s: Listener, inputs: seq<Input>)
    ensures Run(s, inputs).next.enabled == s.enabled
    ensures Run(s, inputs).next.registered == s.registered
    ensures Run(s, inputs).next.handlers == s.handlers
    decreases |inputs|
  {
    if |inputs| > 0 {
      RunKeepsActive(Step(s, inputs[0].event, inputs[0].isAfk).next, inputs[1..]);
    }
  }

  /** A kick stores exactly one kick per occurrence of a target that is not
      idle, and none for an idle target. */
  lemma {:induction false} KickCount(targets: seq<Uuid>, isAfk: Uuid -> bool, u: Uuid)
    ensures Count(KickStores(targets, isAfk), KickStore(u)) == if isAfk(u) then 0 else multiset(targets)[u]
    decreases |targets|
  {
    if |targets| > 0 {
      assert targets == [targets[0]] + targets[1..];
      KickCount(targets[1..], isAfk, u);
    }
  }

  /** A handled kick queues, for every player, one kick store per time the
      player is listed when the AFK tracker does not consider them idle, none
      when it does, and nothing else; the state is unchanged. */
  lemma KickEventStores(s: Listener, targets: seq<Uuid>, isAfk: Uuid -> bool, u: Uuid)
    requires Handles(s, KickEvent(targets))
    ensures var r := Step(s, KickEvent(targets), isAfk);
      && r.next == s
      && (forall e | e in r.effects :: e.KickStore?)
      && Count(r.effects, KickStore(u)) == if isAfk(u) then 0 else multiset(targets)[u]
  {
    KickCount(targets, isAfk, u);
  }

  /** A handled handshake makes no call; it only updates the slot. */
  lemma HandshakeIsSilent(s: Listener, p: IntentionPacket, isAfk: Uuid -> bool)
    requires Handles(s, HandshakeEvent(p))
    ensures Step(s, HandshakeEvent(p), isAfk) == Transition(OnHandshake(s, p), [])
  {
  }

  /** A handled join marks activity and reports the join with the address the
      cache holds for that player, not the shared slot, and changes no state. */
  lemma JoinEventCalls(s: Listener, u: Uuid, t: Millis, isAfk: Uuid -> bool)
    requires Handles(s, LoggedInEvent(u, t))
    ensures Step(s, LoggedInEvent(u, t), isAfk) ==
      Transition(s, [PerformedAction(u, t), JoinGameServer(s.server, u, CachedAddress(s, u), t)])
  {
  }

  /** A handled quit makes the four leave calls for that player, with the
      event's two clock reads, and changes no state. */
  lemma LogoutEventOrder(s: Listener, u: Uuid, t0: Millis, t: Millis, isAfk: Uuid -> bool)
    requires Handles(s, LoggedOutEvent(u, t0, t))
    ensures var r := Step(s, LoggedOutEvent(u, t0, t), isAfk);
      && r.next == s
      && r.effects == [BeforeLeave(s.server, u, t0), LoggedOut(u, t), RemovePosition(u), LeaveGameServer(s.server, u, t)]
  {
  }

  /** A login records the slot for that profile and leaves every other
      player's cached address as it was. */
  lemma LoginRecordsSlot(s: Listener, id: Uuid, rejection: Option<string>, v: Uuid, isAfk: Uuid -> bool)
    requires Handles(s, LoginEvent(id, rejection))
    ensures var next := Step(s, LoginEvent(id, rejection), isAfk).next;
      && CachedAddress(next, id) == s.joinAddress
      && (v != id ==> CachedAddress(next, v) == CachedAddress(s, v))
  {
  }

  /** Handshake, login and join in turn: the join carries the hostname of the
      handshake, cut at its first NUL, and the login is recorded with the
      rejection as ban status. */
  lemma HandshakeLoginJoin(s: Listener, host: Option<string>, u: Uuid, rejection: Option<string>, t: Millis,
                           isAfk: Uuid -> bool)
    requires s.enabled && Valid(s) && s.registered
    ensures var s1 := Step(s, HandshakeEvent(IntentionPacket(Login, host)), isAfk);
      var s2 := Step(s1.next, LoginEvent(u, rejection), isAfk);
      var s3 := Step(s2.next, LoggedInEvent(u, t), isAfk);
      && s1.effects == []
      && s2.effects == [BanStatus(u, s.server, rejection.Some?)]
      && s3.effects == [PerformedAction(u, t), JoinGameServer(s.server, u, StoredHostName(host), t)]
  {
  }

  /** The slot is not cleared by a login: a second login with no handshake in
      between records the same address for the second profile. */
  lemma LoginKeepsSlot(s: Listener, u: Uuid, v: Uuid, ru: Option<string>, rv: Option<string>, isAfk: Uuid -> bool)
    requires s.enabled && Valid(s) && s.registered
    ensures var s1 := Step(s, LoginEvent(u, ru), isAfk);
      var s2 := Step(s1.next, LoginEvent(v, rv), isAfk);
      CachedAddress(s2.next, u) == CachedAddress(s2.next, v) == s.joinAddress
  {
  }

  /** In the log, every leave notice comes right after the player's before-leave
      notice, the tracker's logout at the same time, and the position removal;
      every join notice comes right after performedAction at the same time. */
  predicate SessionOrder(log: seq<Effect>)
  {
    && (forall i :: 0 <= i < |log| && log[i].LeaveGameServer? ==>
          && 3 <= i
          && log[i - 3].BeforeLeave? && log[i - 3].player == log[i].player
          && log[i - 2] == LoggedOut(log[i].player, log[i].time)
          && log[i - 1] == RemovePosition(log[i].player))
    && (forall i :: 0 <= i < |log| && log[i].JoinGameServer? ==>
          1 <= i && log[i - 1] == PerformedAction(log[i].player, log[i].time))
  }

  /** Appending two logs in session order gives a log in session order. */
  lemma SessionOrderAppend(a: seq<Effect>, b: seq<Effect>)
    requires SessionOrder(a) && SessionOrder(b)
    ensures SessionOrder(a + b)
  {
    var log := a + b;
    forall i | 0 <= i < |log| && log[i].LeaveGameServer?
      ensures 3 <= i && log[i - 3].BeforeLeave? && log[i - 3].player == log[i].player
      ensures log[i - 2] == LoggedOut(log[i].player, log[i].time)
      ensures log[i - 1] == RemovePosition(log[i].player)
    {
      if i >= |a| {
        assert log[i] == b[i - |a|];
        assert log[i - 3] == b[i - |a| - 3] && log[i - 2] == b[i - |a| - 2] && log[i - 1] == b[i - |a| - 1];
      } else {
        assert log[i] == a[i];
      }
    }
    forall i | 0 <= i < |log| && log[i].JoinGameServer?
      ensures 1 <= i && log[i - 1] == PerformedAction(log[i].player, log[i].time)
    {
      if i >= |a| {
        assert log[i] == b[i - |a|];
        assert log[i - 1] == b[i - |a| - 1];
      } else {
        assert log[i] == a[i];
      }
    }
  }

  /** A single event's calls are in session order. */
  lemma StepSessionOrder(s: Listener, e: Event, isAfk: Uuid -> bool)
    ensures SessionOrder(Step(s, e, isAfk).effects)
  {
    if Handles(s, e) {
      match e
      case LoggedInEvent(u, t) =>
      case LoggedOutEvent(u, t0, t) =>
      case KickEvent(targets) =>
        var log := KickStores(targets, isAfk);
        assert forall i :: 0 <= i < |log| ==> log[i] in log;
      case LoginEvent(id, rejection) =>
      case HandshakeEvent(p) =>
    }
  }

  /** Whatever the events, the log keeps every quit and every join in the order
      the listener makes its calls. */
  lemma {:induction false} RunKeepsSessionOrder(s: Listener, inputs: seq<Input>)
    ensures SessionOrder(Run(s, inputs).effects)
    decreases |inputs|
  {
    if |inputs| > 0 {
      var first := Step(s, inputs[0].event, inputs[0].isAfk);
      RunKeepsSessionOrder(first.next, inputs[1..]);
      StepSessionOrder(s, inputs[0].event, inputs[0].isAfk);
      SessionOrderAppend(first.effects, Run(first.next, inputs[1..]).effects);
    }
  }
}

=== FILE: text.dfy ===
/** The few java.lang.String operations the listeners rely on. */
module Text {

  /** The character U+0000. */
  const Nul: char := '\0'

  /** String.indexOf(char): the first position of c in s, or -1 when absent. */
  function IndexOf(s: string, c: char): (r: int)
    ensures r == -1 <==> c !in s
    ensures r != -1 ==> 0 <= r < |s| && s[r] == c && forall j :: 0 <= j < r ==> s[j] != c
  {
    if |s| == 0 then -1
    else if s[0] == c then 0
    else
      var k := IndexOf(s[1..], c);
      if k == -1 then -1 else k + 1
  }

  /** p is a prefix of s (String.startsWith). */
  function StartsWith(s: string, p: string): (r: bool)
    ensures r <==> |p| <= |s| && forall i :: 0 <= i < |p| ==> s[i] == p[i]
  {
    |p| <= |s| && s[..|p|] == p
  }

  /** Character.toLowerCase restricted to the ASCII letters. */
  function LowerChar(c: char): char
  {
    if 'A' <= c <= 'Z' then (c as int + 32) as char else c
  }

  /** String.toLowerCase, letter by letter, with ASCII case mapping. */
  function ToLower(s: string): (r: string)
    ensures |r| == |s|
    ensures forall i :: 0 <= i < |s| ==> r[i] == LowerChar(s[i])
  {
    seq(|s|, i requires 0 <= i < |s| => LowerChar(s[i]))
  }
}
